=== FILE: README.md ===
# Exception-to-ticket dedup pipeline: a Dafny model

This project models the part of `app.py` that turns Application Insights
exceptions into Jira tickets without filing the same occurrence twice.

- `safe_key.dfy` (module `SafeKey`): `get_safe_key`, the sanitiser for Azure
  Table Storage keys. A Python `str` is a sequence of code points
  0..0x10FFFF. Lone surrogates are included, because `str.encode('utf-8')`
  raises `UnicodeEncodeError` on them and `get_safe_key` does not catch it.
  Nothing in the pipeline calls `get_safe_key`, so the model keeps it
  standalone too.
- `row_key.dfy` (module `RowKey`): the dedup identity
  `parse(timestamp).strftime("%Y%m%d%H%M%S")`. `dateutil.parse` is a
  parameter `parse: string -> Option<ParsedTime>`. `None` stands for "parse
  raised".
- `dedup_store.dfy` (module `DedupStore`): the `ExceptionTracking` table as a
  flag (does the table exist) plus a map from RowKey to entity. It covers
  `is_exception_processed` and `mark_exception_processed`, and
  `MarkWithRetries` is the retry loop as a `while` loop. What the table
  service decides enters as oracle values:
  - whether `get_table_client` returns a client;
  - how a query goes: answered, ResourceNotFoundError, or another error;
  - how each of the three upsert attempts goes.
  A ResourceNotFoundError means the table is gone along with its entities.
  `ensure_table_exists` then recreates it, or fails and leaves the client
  `None`, after which every later attempt raises.
- `trigger.dfy` (module `Trigger`): `manual_trigger` as a fold over the
  fetched rows. The fold threads the store, the `created` and `skipped`
  counters, a log of submitted tickets and a per-row outcome. Jira's answer
  for each submitted ticket is an oracle: a key, a response without a key,
  or a raised error.
- `base.dfy` (module `Base`): the `Option` type.

Three consequences of the code are worth stating, because a reader might
expect otherwise:

- There is no fixed key for an unparseable timestamp. `parse` raises inside
  the outer `try` of `is_exception_processed` (app.py:113), which returns
  false (app.py:137-140). It also raises inside the outer `try` of
  `mark_exception_processed` (app.py:153), where it is caught and nothing is
  written (app.py:184-186). So such a row gets a new ticket on every run
  (`Trigger.UnparseableRowNeverSkipped`).
- The row key is the timestamp alone (app.py:114 and app.py:158). The
  duplicate query filters on `RowKey` only (app.py:118), and the problem id is
  merely stored as `OriginalProblemId` (app.py:161). A second problem reported
  in the same second is therefore skipped (`Trigger.SameSecondCollides`).
- `strftime("%Y%m%d%H%M%S")` keeps only the wall-clock fields. Microseconds
  and the UTC offset are dropped. So `10:00:00+05:00` and `10:00:00Z` share a
  key (`RowKey.SameSecondSameKey`).

## Model

| member | source | states |
|---|---|---|
| `SafeKey.Utf8Length` | app.py:97 | the UTF-8 byte count of a string lies between its length in code points and four times that length |
| `SafeKey.ReplaceSeparators` | app.py:86 | the result has the input's length and no `/` or `\`; each separator becomes `_` and every other code point is kept |
| `SafeKey.StripLeadingDots` | app.py:88-90 | the result is the suffix left after a run of dots, and it does not start with a dot |
| `SafeKey.Sanitise` | app.py:86-90 | the two replacements and then the dot stripping; what it keeps is stated by `SafeKey.SanitiseShape` and `SafeKey.SanitiseKeepsSurrogates` |
| `SafeKey.ReplaceKeepsSurrogates` | app.py:86 | replacing `/` and `\` leaves a lone surrogate in place, so the replaced string encodes exactly when the input does |
| `SafeKey.StripKeepsSurrogates` | app.py:88-90 | stripping leading dots encodes exactly when the input does, and it never strips away a lone surrogate |
| `SafeKey.SanitiseShape` | app.py:86-90 | the sanitised string has no `/` or `\`, and a key of dots only sanitises to the empty string |
| `SafeKey.SanitiseKeepsSurrogates` | app.py:86-97 | the sanitised string holds a lone surrogate exactly when the input does, and it is then non-empty, so the encode step is reached |
| `SafeKey.GetSafeKey` | app.py:75-100 | a returned key is non-empty, has no `/` or `\`, does not start with `.`, encodes and is at most 1000 UTF-8 bytes; empty or all-dot input gives "unknown"; the call raises UnicodeEncodeError exactly when the input holds a lone surrogate; any other key is a prefix of the sanitised string |
| `SafeKey.TruncationKeepsPrefix` | app.py:96-98 | when the sanitised string encodes to more than 1000 bytes, it has more than 250 code points and the key is exactly its first 250 |
| `SafeKey.ShortKeyKept` | app.py:96-100 | a non-empty sanitised string within 1000 bytes is returned whole |
| `SafeKey.FixedPointIffAdmissible` | app.py:75-100 | `get_safe_key` returns its input unchanged if and only if the input is already an admissible key |
| `SafeKey.Idempotent` | app.py:75-100 | sanitising a returned key again returns the same key |
| `RowKey.Pad` | app.py:114 | a zero-padded field has exactly the requested width, is all digits, and reads back as the number |
| `RowKey.RowKeyOf` | app.py:114 | the `%Y%m%d%H%M%S` rendering of a date-time with a four-digit year is 14 digits from which year, month, day, hour, minute and second read back |
| `RowKey.RowKeyInjective` | app.py:114 | two date-times share a row key if and only if they agree to the second |
| `RowKey.RowKeyFor` | app.py:113-114 | a timestamp has a row key exactly when it parses; the key is 14 digits that decode to the parsed fields |
| `RowKey.SameSecondSameKey` | app.py:113-114 | two parsed timestamps get the same row key if and only if they agree to the second, whatever their microseconds and offsets |
| `DedupStore.EnsureTable` | app.py:27-73 | a successful client acquisition leaves the table existing and every entity in place |
| `DedupStore.EnsureTableIdempotent` | app.py:39-44 | provisioning twice equals provisioning once, and it keeps the store invariant |
| `DedupStore.Recreated` | app.py:129-131 | after ResourceNotFoundError the table is empty, whether or not it was recreated |
| `DedupStore.IsExceptionProcessed` | app.py:102-140 | true only when the timestamp parses and its row key is stored; with a client and an answered query, true exactly then; false when there is no client, the query fails, the table is reported missing or the parse fails; a table reported missing for a parsed key is left empty; on every other path the entities stay as they were |
| `DedupStore.Upsert` | app.py:170 | the entity is stored under its row key, and every other entity is kept |
| `DedupStore.RetryUpsert` | app.py:165-182 | at most 3 attempts; a failure means all 3 were used and adds or changes no entity; a success is the last attempt made, and no earlier attempt succeeded; the entity is then stored; no other row key gains or changes an entity; entities are lost only through a ResourceNotFoundError: without one, every other entity is kept, and a failure leaves the store exactly as it was |
| `DedupStore.RetryRecordedIff` | app.py:165-182 | the loop records the entity if and only if some attempt succeeds before a failed re-provisioning loses the client |
| `DedupStore.MarkWithRetries` | app.py:165-182 | the `while` loop computes the same store, attempt count and success as the retry definition |
| `DedupStore.EntityFor` | app.py:156-163 | the entity written: partition `exceptions`, the row key, the Jira key, the problem id and the original timestamp; that it is what a recorded mark stores is stated by `DedupStore.MarkExceptionProcessed` |
| `DedupStore.MarkExceptionProcessed` | app.py:142-186 | at most 3 attempts; a success stores the entity with partition `exceptions`, the derived row key and the Jira key; a mark that is not recorded adds or changes no entity; without a client or with an unparseable timestamp the entities stay as they were; without a ResourceNotFoundError no row key is lost; with a client, a parsed timestamp and a successful first attempt, exactly that one entity is added in one attempt; other row keys are never added or changed |
| `DedupStore.MarkRecordedIff` | app.py:146-182 | the mark is recorded if and only if a client is available, the timestamp parses and an attempt succeeds before the client is lost |
| `DedupStore.MarkThenCheck` | app.py:153-154 | the row key the mark derives here is the one the check derives at app.py:113-114, so after a recorded mark an answered check of the same timestamp reports it processed |
| `Trigger.HandleRow` | app.py:368-409 | the per-row `try` block: duplicate check, ticket, mark; characterised by `Trigger.HandleRowOutcome` and `Trigger.ReliableStep` |
| `Trigger.HandleRowOutcome` | app.py:373-409 | a row is skipped if and only if the check reports it processed; otherwise a ticket is submitted; it ends as created if and only if Jira returned a key, as failed if and only if the request raised; only a created ticket touches the store after the check |
| `Trigger.HandleRowValid` | app.py:373-409 | handling a row keeps the store invariant: every entity sits in partition `exceptions` under its own row key |
| `Trigger.Record` | app.py:374-404 | `skipped` grows by one for a skip, `created` by one for a created ticket, and every row that is not skipped goes to Jira |
| `Trigger.RecordConsistent` | app.py:374-404 | the bookkeeping keeps each counter equal to the number of outcomes of its kind |
| `Trigger.Step` | app.py:367-409 | one iteration of the loop: the per-row block followed by the bookkeeping; its effect is stated by `Trigger.ReliableStep` and `Trigger.HandleRowOutcome` |
| `Trigger.Fold` | app.py:367-409 | every row gets exactly one outcome |
| `Trigger.FoldInvariants` | app.py:367-409 | over a whole pass the counters keep matching the outcomes and the store invariant is kept |
| `Trigger.FoldSplit` | app.py:367-409 | running a batch equals running its first part and then the rest from the resulting state |
| `Trigger.FailedRowIsolated` | app.py:407-409 | a row whose Jira request raises increments neither counter, and the later rows are handled as if they started from the state after it |
| `Trigger.ManualTrigger` | app.py:350-418 | an empty fetch gives all-zero counts and an untouched store; otherwise the total is the row count, created and skipped equal the counts of those outcomes, and their sum is at most the total |
| `Trigger.ReliableStep` | app.py:374-404 | with a reliable store and a key from Jira, a row whose key is stored leaves the store, the ticket log and `created` unchanged; a row whose key is not stored gets one ticket and adds exactly its key; a row whose timestamp does not parse gets a ticket and leaves the store unchanged |
| `Trigger.FoldExtendsSubmitted` | app.py:367-409 | a pass only appends to the log of submitted tickets |
| `Trigger.ReliableFoldStores` | app.py:374-404 | under a reliable store, a pass adds exactly the row keys of its rows whose timestamps parse |
| `Trigger.KeysOfOnlyRowKeys` | app.py:113-114 | every key in the set of keys of a batch is the row key of one of its rows whose timestamp parses |
| `Trigger.ReliableFoldCounts` | app.py:397-404 | when Jira answers every ticket with a key, the created count grows by exactly the number of tickets filed |
| `Trigger.ReliableFoldFresh` | app.py:374-404 | under a reliable store, no ticket filed in a pass has a row key that was stored before the pass |
| `Trigger.ReliableFoldDistinct` | app.py:374-404 | under a reliable store, the tickets filed in one pass that have a row key have pairwise distinct row keys |
| `Trigger.FoldSubmitsOnlyRows` | app.py:367-400 | every ticket a pass files is for one of the fetched rows |
| `Trigger.AllStoredFold` | app.py:374-377 | when every timestamp parses, every row key is already stored and the checks are answered, every row is skipped and nothing changes |
| `Trigger.AtMostOneTicketPerKey` | app.py:340-418 | under a reliable store one run files tickets only for fetched rows, at most one per row key and none for a key stored before; every ticket is counted; the stored keys grow by exactly the keys of the rows that parse; when every timestamp parses, every ticket has a row key. Rows that do not parse may be ticketed more than once |
| `Trigger.SecondRunSkipsAll` | app.py:374-377 | provided every timestamp parses, after a reliable run a second run over the same rows whose checks are answered creates 0 tickets and skips every row |
| `Trigger.UnparseableRowNeverSkipped` | app.py:102-186 | a row whose timestamp does not parse is never skipped and leaves the stored entities exactly as they were, so every run files a ticket for it |
| `Trigger.SameSecondCollides` | app.py:112-124 | under a reliable store, a row from the same second as the row just before it is skipped, whatever its problem id |

## Left out

- Flask routing and the JSON replies (`/appget`, the `jsonify` bodies, the HTTP 500 path): HTTP plumbing. The model returns the `summary` object only. The outer `except` of `manual_trigger` cannot be reached in the model, because nothing inside the per-row `try` escapes it.
- `query_app_insights`: an HTTP call plus JSON reshaping. The fetched rows are an input sequence. A failed fetch is the empty sequence, which is what that function returns.
- `create_jira_issue`: a Jira REST call, replaced by an oracle of outcomes. The ticket summary and description text (`json.dumps` of custom dimensions) are not modelled. The description is built from fields that `query_app_insights` always supplies.
- `get_table_client` / `ensure_table_exists`: Azure SDK client construction and module-global caching. They become one oracle flag per call ("a client was returned") and `EnsureTable`.
- `DedupStore.EnsureTable`: keeps every entity. In `get_table_client` (app.py:62-72) a cached client that fails its check is replaced through `ensure_table_exists`, which creates the table empty if it was deleted in the meantime. The model loses entities only when a query or upsert reports ResourceNotFoundError (`QueryNotFound`, `UpsertNotFound`), not when a table vanishes between calls.
- `dateutil.parse`: a foreign library, kept as an abstract partial function.
- `Trigger.SecondRunSkipsAll`: the same `parse` is used for both runs. `dateutil.parse` fills fields missing from a timestamp from the current date, so a timestamp without a date can get a different row key on a later day. That clock dependence is not modelled.
- `ProcessedTime` (`datetime.utcnow()`) in the entity, and all `print`/`traceback` logging: a clock reading and I/O.
- `RowKey.RowKeyOf`: only years 1000–9999 are modelled (`ParsedTime` excludes the rest). For years below 1000, glibc's `%Y` prints fewer than four digits, which is platform-dependent behaviour.
- `SafeKey.GetSafeKey`: takes a string. The `None` argument, which the `if not key` test also maps to "unknown", is not modelled.
- Concurrent invocations racing on the same row key: the table has no locking, and this model is sequential.

=== FILE: base.dfy ===
/** Values that may be absent, shared by the modules of the dedup pipeline. */
module Base {

  /** Absence of a value: a failed parse, a missing response field. */
  datatype Option<+T> = None | Some(value: T)
}

=== FILE: dedup_store.dfy ===
/**
 * The dedup store: the Azure table "ExceptionTracking", consulted by
 * `is_exception_processed` and written by `mark_exception_processed`.
 *
 * Everything the table service decides on its own (whether a client can be
 * obtained, whether a query or an upsert succeeds) enters as an oracle value.
 */
module DedupStore {
  import opened Base
  import opened RowKey

  /** The PartitionKey of every entity the pipeline writes. */
  const Partition: string := "exceptions"
  const MaxRetries: nat := 3

  /** One table entity; `ProcessedTime` (a clock reading) is not modelled. */
  datatype Entity = Entity(
    partitionKey: string,
    rowKey: string,
    jiraKey: string,
    problemId: string,
    originalTimestamp: string)

  /** The table: whether it exists, and its entities by RowKey. */
  datatype Store = Store(tableExists: bool, rows: map<string, Entity>)
  {
    /** A missing table holds nothing; every entity sits in the one partition under its own row key. */
    predicate Valid() {
      && (!tableExists ==> rows == map[])
      && forall k | k in rows :: rows[k].partitionKey == Partition && rows[k].rowKey == k
    }
  }

  /** `ensure_table_exists` when it succeeds: creating a table that already exists is not an error. */
  function EnsureTable(s: Store): (s': Store)
    ensures s'.tableExists
    ensures s'.rows == s.rows
  {
    s.(tableExists := true)
  }

  /** Provisioning twice is provisioning once, and never loses an entity. */
  lemma EnsureTableIdempotent(s: Store)
    ensures EnsureTable(EnsureTable(s)) == EnsureTable(s)
    ensures s.Valid() ==> EnsureTable(s).Valid()
  {
  }

  /** The table after a ResourceNotFoundError: it is gone with its entities, and re-provisioning may fail. */
  function Recreated(provisioned: bool): (s': Store)
    ensures s'.Valid() && s'.rows == map[]
  {
    Store(provisioned, map[])
  }

  /** The service's answer to `query_entities` in one call. */
  datatype QueryOutcome = Answered | QueryNotFound(reprovisioned: bool) | QueryFailed

  /** Whether `get_table_client` returned a client, and how the query went. */
  datatype CheckOracle = CheckOracle(clientAvailable: bool, query: QueryOutcome)

  datatype CheckResult = CheckResult(processed: bool, store: Store)

  /** `is_exception_processed`: a membership test on the row key that fails closed to false. */
  function IsExceptionProcessed(s: Store, parse: Parser, timestamp: string, o: CheckOracle): (r: CheckResult)
    ensures r.processed ==> RowKeyFor(parse, timestamp).Some? && RowKeyFor(parse, timestamp).value in s.rows
    ensures o.clientAvailable && o.query.Answered? && RowKeyFor(parse, timestamp).Some?
            ==> (r.processed <==> RowKeyFor(parse, timestamp).value in s.rows)
    ensures !o.clientAvailable || o.query.QueryFailed? || o.query.QueryNotFound? || RowKeyFor(parse, timestamp).None?
            ==> !r.processed
    ensures !(o.clientAvailable && o.query.QueryNotFound? && RowKeyFor(parse, timestamp).Some?) ==> r.store.rows == s.rows
    ensures o.clientAvailable && o.query.QueryNotFound? && RowKeyFor(parse, timestamp).Some? ==> r.store.rows == map[]
    ensures s.Valid() ==> r.store.Valid()
  {
    if !o.clientAvailable then CheckResult(false, s)
    else
      var s1 := EnsureTable(s);
      match RowKeyFor(parse, timestamp)
      case None => CheckResult(false, s1)
      case Some(key) =>
        match o.query
        case Answered => CheckResult(key in s1.rows, s1)
        case QueryNotFound(ok) => CheckResult(false, Recreated(ok))
        case QueryFailed => CheckResult(false, s1)
  }

  /** The service's answer to one `upsert_entity` call. */
  datatype Attempt = Upserted | UpsertNotFound(reprovisioned: bool) | UpsertFailed

  /** One answer per attempt the retry loop may make. */
  type Attempts = a: seq<Attempt> | |a| == MaxRetries witness [UpsertFailed, UpsertFailed, UpsertFailed]

  /** Whether `get_table_client` returned a client, and how each upsert attempt goes. */
  datatype MarkOracle = MarkOracle(clientAvailable: bool, attempts: Attempts)

  datatype MarkResult = MarkResult(store: Store, attemptsMade: nat, recorded: bool)

  /** Insert-or-replace of one entity under its row key. */
  function Upsert(s: Store, e: Entity): (s': Store)
    requires s.tableExists
    ensures e.rowKey in s'.rows && s'.rows[e.rowKey] == e
    ensures forall k | k in s.rows && k != e.rowKey :: k in s'.rows && s'.rows[k] == s.rows[k]
    ensures s'.rows.Keys == s.rows.Keys + {e.rowKey}
  {
    s.(rows := s.rows[e.rowKey := e])
  }

  /** No attempt in `from..to` lost the client through a failed re-provisioning. */
  predicate ClientKept(attempts: Attempts, from: nat, to: nat)
    requires from <= to <= MaxRetries
  {
    forall j | from <= j < to :: attempts[j] != UpsertNotFound(false)
  }

  /**
   * The retry loop from attempt `tried` on. `hasClient` turns false once
   * re-provisioning fails; the `None` client then raises on every later
   * attempt, whatever the service would have answered.
   */
  function RetryUpsert(s: Store, hasClient: bool, e: Entity, attempts: Attempts, tried: nat): (r: MarkResult)
    requires tried <= MaxRetries
    requires hasClient ==> s.tableExists
    ensures tried <= r.attemptsMade <= MaxRetries
    ensures !r.recorded ==> r.attemptsMade == MaxRetries
    ensures r.recorded ==> tried < r.attemptsMade && hasClient && attempts[r.attemptsMade - 1].Upserted?
    ensures r.recorded ==> forall j | tried <= j < r.attemptsMade - 1 :: !attempts[j].Upserted?
    ensures r.recorded ==> e.rowKey in r.store.rows && r.store.rows[e.rowKey] == e
    ensures forall k | k in r.store.rows && k != e.rowKey :: k in s.rows && r.store.rows[k] == s.rows[k]
    ensures !r.recorded ==> forall k | k in r.store.rows :: k in s.rows && r.store.rows[k] == s.rows[k]
    ensures (forall j | tried <= j < r.attemptsMade :: !attempts[j].UpsertNotFound?) ==>
              forall k | k in s.rows && k != e.rowKey :: k in r.store.rows
    ensures (forall j | tried <= j < r.attemptsMade :: !attempts[j].UpsertNotFound?) && !r.recorded ==> r.store == s
    ensures s.Valid() && e.partitionKey == Partition ==> r.store.Valid()
    decreases MaxRetries - tried
  {
    if tried == MaxRetries then MarkResult(s, tried, false)
    else if !hasClient then RetryUpsert(s, false, e, attempts, tried + 1)
    else
      match attempts[tried]
      case Upserted => MarkResult(Upsert(s, e), tried + 1, true)
      case UpsertNotFound(ok) => RetryUpsert(Recreated(ok), ok, e, attempts, tried + 1)
      case UpsertFailed => RetryUpsert(s, true, e, attempts, tried + 1)
  }

  /** The loop records the entity exactly when some attempt succeeds before the client is lost. */
  lemma {:induction false} RetryRecordedIff(s: Store, hasClient: bool, e: Entity, attempts: Attempts, tried: nat)
    requires tried <= MaxRetries
    requires hasClient ==> s.tableExists
    ensures RetryUpsert(s, hasClient, e, attempts, tried).recorded
        <==> hasClient && exists i | tried <= i < MaxRetries :: attempts[i].Upserted? && ClientKept(attempts, tried, i)
    decreases MaxRetries - tried
  {
    if tried == MaxRetries {
    } else if !hasClient {
      RetryRecordedIff(s, false, e, attempts, tried + 1);
    } else {
      match attempts[tried]
      case Upserted =>
        assert ClientKept(attempts, tried, tried);
      case UpsertNotFound(ok) =>
        RetryRecordedIff(Recreated(ok), ok, e, attempts, tried + 1);
        if ok {
          if exists i | tried + 1 <= i < MaxRetries :: attempts[i].Upserted? && ClientKept(attempts, tried + 1, i) {
            var i :| tried + 1 <= i < MaxRetries && attempts[i].Upserted? && ClientKept(attempts, tried + 1, i);
            assert ClientKept(attempts, tried, i);
          }
        } else {
          forall i | tried <= i < MaxRetries && attempts[i].Upserted?
            ensures !ClientKept(attempts, tried, i)
          {
            assert attempts[tried] == UpsertNotFound(false);
          }
        }
      case UpsertFailed =>
        RetryRecordedIff(s, true, e, attempts, tried + 1);
        if exists i | tried + 1 <= i < MaxRetries :: attempts[i].Upserted? && ClientKept(attempts, tried + 1, i) {
          var i :| tried + 1 <= i < MaxRetries && attempts[i].Upserted? && ClientKept(attempts, tried + 1, i);
          assert ClientKept(attempts, tried, i);
        }
    }
  }

  /** The `while retry_count < max_retries` loop of `mark_exception_processed`, on a provisioned table. */
  method MarkWithRetries(s: Store, e: Entity, attempts: Attempts) returns (r: MarkResult)
    requires s.tableExists
    ensures r == RetryUpsert(s, true, e, attempts, 0)
  {
    var store := s;
    var hasClient := true;
    var retryCount := 0;
    while retryCount < MaxRetries
      invariant 0 <= retryCount <= MaxRetries
      invariant hasClient ==> store.tableExists
      invariant RetryUpsert(store, hasClient, e, attempts, retryCount) == RetryUpsert(s, true, e, attempts, 0)
      decreases MaxRetries - retryCount
    {
      if !hasClient {
        retryCount := retryCount + 1;
      } else {
        match attempts[retryCount]
        case Upserted =>
          return MarkResult(Upsert(store, e), retryCount + 1, true);
        case UpsertNotFound(ok) =>
          store := Recreated(ok);
          hasClient := ok;
          retryCount := retryCount + 1;
        case UpsertFailed =>
          retryCount := retryCount + 1;
      }
    }
    return MarkResult(store, retryCount, false);
  }

  /** The entity `mark_exception_processed` writes for a row key. */
  function EntityFor(key: string, jiraKey: string, problemId: string, timestamp: string): Entity {
    Entity(Partition, key, jiraKey, problemId, timestamp)
  }

  /** `mark_exception_processed`: an upsert under the derived row key with at most three attempts; it never raises. */
  function MarkExceptionProcessed(s: Store, parse: Parser, problemId: string, timestamp: string, jiraKey: string, o: MarkOracle): (r: MarkResult)
    ensures r.attemptsMade <= MaxRetries
    ensures r.recorded ==> o.clientAvailable && RowKeyFor(parse, timestamp).Some?
    ensures r.recorded ==>
      var key := RowKeyFor(parse, timestamp).value;
      key in r.store.rows && r.store.rows[key] == EntityFor(key, jiraKey, problemId, timestamp)
    ensures o.clientAvailable && RowKeyFor(parse, timestamp).Some? && o.attempts[0].Upserted? ==>
      var key := RowKeyFor(parse, timestamp).value;
      r.recorded && r.attemptsMade == 1 && r.store.rows == s.rows[key := EntityFor(key, jiraKey, problemId, timestamp)]
    ensures forall k | k in r.store.rows && (RowKeyFor(parse, timestamp).None? || k != RowKeyFor(parse, timestamp).value) ::
      k in s.rows && r.store.rows[k] == s.rows[k]
    ensures !r.recorded ==> forall k | k in r.store.rows :: k in s.rows && r.store.rows[k] == s.rows[k]
    ensures !o.clientAvailable || RowKeyFor(parse, timestamp).None? ==> r.store.rows == s.rows
    ensures (forall j | 0 <= j < r.attemptsMade :: !o.attempts[j].UpsertNotFound?) ==> s.rows.Keys <= r.store.rows.Keys
    ensures s.Valid() ==> r.store.Valid()
  {
    if !o.clientAvailable then MarkResult(s, 0, false)
    else
      match RowKeyFor(parse, timestamp)
      case None => MarkResult(EnsureTable(s), 0, false)
      case Some(key) => RetryUpsert(EnsureTable(s), true, EntityFor(key, jiraKey, problemId, timestamp), o.attempts, 0)
  }

  /** A mark records the entity exactly when a client is available, the timestamp parses and an attempt succeeds before the client is lost. */
  lemma MarkRecordedIff(s: Store, parse: Parser, problemId: string, timestamp: string, jiraKey: string, o: MarkOracle)
    ensures MarkExceptionProcessed(s, parse, problemId, timestamp, jiraKey, o).recorded
        <==> && o.clientAvailable
             && RowKeyFor(parse, timestamp).Some?
             && exists i | 0 <= i < MaxRetries :: o.attempts[i].Upserted? && ClientKept(o.attempts, 0, i)
  {
    if o.clientAvailable && RowKeyFor(parse, timestamp).Some? {
      var key := RowKeyFor(parse, timestamp).value;
      RetryRecordedIff(EnsureTable(s), true, EntityFor(key, jiraKey, problemId, timestamp), o.attempts, 0);
    }
  }

  /** Once a mark succeeds, a later check of the same timestamp finds it: both derive the same row key. */
  lemma MarkThenCheck(s: Store, parse: Parser, problemId: string, timestamp: string, jiraKey: string, o: MarkOracle)
    requires MarkExceptionProcessed(s, parse, problemId, timestamp, jiraKey, o).recorded
    ensures IsExceptionProcessed(MarkExceptionProcessed(s, parse, problemId, timestamp, jiraKey, o).store,
                                 parse, timestamp, CheckOracle(true, Answered)).processed
  {
  }
}

=== FILE: row_key.dfy ===
/**
 * The dedup identity of an exception: `parse(timestamp).strftime("%Y%m%d%H%M%S")`.
 *
 * `dateutil.parse` is a foreign library; it enters the model as a parameter
 * of type `Parser`, a partial function from strings to date-times.
 */
module RowKey {
  import opened Base

  /** Years whose `%Y` rendering is four digits. */
  const MinYear: int := 1000
  const MaxYear: int := 9999
  const RowKeyLength: nat := 14

  predicate IsLeapYear(y: int) {
    y % 4 == 0 && (y % 100 != 0 || y % 400 == 0)
  }

  function DaysInMonth(y: int, m: int): int
    requires 1 <= m <= 12
  {
    if m == 2 then (if IsLeapYear(y) then 29 else 28)
    else if m == 4 || m == 6 || m == 9 || m == 11 then 30
    else 31
  }

  /** The wall-clock fields that the row key keeps. */
  datatype Civil = Civil(year: int, month: int, day: int, hour: int, minute: int, second: int)

  /** A Python `datetime`, naive or carrying a UTC offset in seconds. */
  datatype DateTime = DateTime(
    year: int, month: int, day: int,
    hour: int, minute: int, second: int,
    microsecond: int,
    utcOffset: Option<int>)
  {
    predicate Valid() {
      && MinYear <= year <= MaxYear
      && 1 <= month <= 12
      && 1 <= day <= DaysInMonth(year, month)
      && 0 <= hour < 24
      && 0 <= minute < 60
      && 0 <= second < 60
      && 0 <= microsecond < 1_000_000
      && (utcOffset.Some? ==> -86400 < utcOffset.value < 86400)
    }

    /** The date-time with microseconds and offset dropped. */
    function WholeSecond(): Civil {
      Civil(year, month, day, hour, minute, second)
    }
  }

  type ParsedTime = d: DateTime | d.Valid() witness DateTime(2000, 1, 1, 0, 0, 0, 0, None)

  /** `dateutil.parser.parse`: a date-time, or `None` where it raises. */
  type Parser = string -> Option<ParsedTime>

  predicate IsDigit(c: char) {
    '0' <= c <= '9'
  }

  predicate IsDigits(s: string) {
    forall i | 0 <= i < |s| :: IsDigit(s[i])
  }

  function DigitChar(d: nat): (c: char)
    requires d < 10
    ensures IsDigit(c)
  {
    ('0' as int + d) as char
  }

  function DigitValue(c: char): nat
    requires IsDigit(c)
  {
    c as int - '0' as int
  }

  function Pow10(n: nat): (p: nat)
    ensures p >= 1
  {
    if n == 0 then 1 else 10 * Pow10(n - 1)
  }

  /** The number a string of decimal digits denotes. */
  function DecimalValue(s: string): nat
    requires IsDigits(s)
  {
    if |s| == 0 then 0 else 10 * DecimalValue(s[..|s| - 1]) + DigitValue(s[|s| - 1])
  }

  /** `n` written with exactly `width` decimal digits, zero-padded on the left. */
  function Pad(n: nat, width: nat): (r: string)
    requires n < Pow10(width)
    ensures |r| == width
    ensures IsDigits(r)
    ensures DecimalValue(r) == n
  {
    if width == 0 then ""
    else
      var r := Pad(n / 10, width - 1) + [DigitChar(n % 10)];
      assert r[..|r| - 1] == Pad(n / 10, width - 1);
      r
  }

  /** Reads the six fields back out of a row key. */
  function DecodeRowKey(k: string): Civil
    requires |k| == RowKeyLength && IsDigits(k)
  {
    Civil(DecimalValue(k[0..4]), DecimalValue(k[4..6]), DecimalValue(k[6..8]),
          DecimalValue(k[8..10]), DecimalValue(k[10..12]), DecimalValue(k[12..14]))
  }

  /** `strftime("%Y%m%d%H%M%S")`: a 14-digit string from which the whole-second fields can be read back. */
  function RowKeyOf(d: ParsedTime): (k: string)
    ensures |k| == RowKeyLength
    ensures IsDigits(k)
    ensures DecodeRowKey(k) == d.WholeSecond()
  {
    assert Pow10(2) == 100 && Pow10(4) == 10000;
    var y := Pad(d.year, 4);
    var mo := Pad(d.month, 2);
    var dd := Pad(d.day, 2);
    var h := Pad(d.hour, 2);
    var mi := Pad(d.minute, 2);
    var s := Pad(d.second, 2);
    var k := y + mo + dd + h + mi + s;
    assert k[0..4] == y && k[4..6] == mo && k[6..8] == dd;
    assert k[8..10] == h && k[10..12] == mi && k[12..14] == s;
    k
  }

  /** Two parsed date-times share a row key exactly when they agree to the second. */
  lemma RowKeyInjective(a: ParsedTime, b: ParsedTime)
    ensures RowKeyOf(a) == RowKeyOf(b) <==> a.WholeSecond() == b.WholeSecond()
  {
    if a.WholeSecond() == b.WholeSecond() {
      assert a.year == b.year && a.month == b.month && a.day == b.day;
    }
  }

  /** The row key for a raw timestamp, or `None` where `parse` raises. */
  function RowKeyFor(parse: Parser, timestamp: string): (r: Option<string>)
    ensures r.Some? <==> parse(timestamp).Some?
    ensures r.Some? ==> |r.value| == RowKeyLength && IsDigits(r.value)
    ensures r.Some? ==> DecodeRowKey(r.value) == parse(timestamp).value.WholeSecond()
  {
    match parse(timestamp)
    case None => None
    case Some(d) => Some(RowKeyOf(d))
  }

  /** Timestamps whose parses agree to the second share one row key, whatever their microseconds and UTC offsets. */
  lemma SameSecondSameKey(parse: Parser, t1: string, t2: string)
    requires parse(t1).Some? && parse(t2).Some?
    ensures RowKeyFor(parse, t1) == RowKeyFor(parse, t2)
        <==> parse(t1).value.WholeSecond() == parse(t2).value.WholeSecond()
  {
    RowKeyInjective(parse(t1).value, parse(t2).value);
  }
}

=== FILE: safe_key.dfy ===
/**
 * `get_safe_key`: turning an arbitrary string into a key that Azure Table
 * Storage accepts as a PartitionKey or RowKey.
 *
 * A Python `str` is a sequence of code points in 0..0x10FFFF. Lone surrogates
 * (0xD800..0xDFFF) can occur in a `str`, but `str.encode('utf-8')` raises
 * `UnicodeEncodeError` on them, which `get_safe_key` does not catch.
 */
module SafeKey {

  type CodePoint = c: int | 0 <= c <= 0x10FFFF
  type PyStr = seq<CodePoint>

  const Slash: CodePoint := 0x2F       // '/'
  const Backslash: CodePoint := 0x5C   // '\'
  const Underscore: CodePoint := 0x5F  // '_'
  const Dot: CodePoint := 0x2E         // '.'

  /** The fallback key "unknown". */
  const Unknown: PyStr := [0x75, 0x6E, 0x6B, 0x6E, 0x6F, 0x77, 0x6E]

  /** Longest accepted UTF-8 encoding, and the length in code points a longer key is cut to. */
  const MaxEncodedBytes: nat := 1000
  const TruncatedLength: nat := 250

  predicate IsSurrogate(c: CodePoint) {
    0xD800 <= c <= 0xDFFF
  }

  /** `s.encode('utf-8')` succeeds exactly when `s` holds no lone surrogate. */
  predicate Encodable(s: PyStr) {
    forall i | 0 <= i < |s| :: !IsSurrogate(s[i])
  }

  /** Bytes taken by one code point in UTF-8. */
  function Utf8Width(c: CodePoint): (w: nat)
    ensures 1 <= w <= 4
  {
    if c < 0x80 then 1
    else if c < 0x800 then 2
    else if c < 0x10000 then 3
    else 4
  }

  /** `len(s.encode('utf-8'))` for an encodable `s`. */
  function Utf8Length(s: PyStr): (n: nat)
    ensures |s| <= n <= 4 * |s|
  {
    if |s| == 0 then 0 else Utf8Width(s[0]) + Utf8Length(s[1..])
  }

  predicate IsSeparator(c: CodePoint) {
    c == Slash || c == Backslash
  }

  /** `key.replace('/', '_').replace('\\', '_')`. */
  function ReplaceSeparators(s: PyStr): (r: PyStr)
    ensures |r| == |s|
    ensures forall i | 0 <= i < |r| :: !IsSeparator(r[i])
    ensures forall i | 0 <= i < |s| && IsSeparator(s[i]) :: r[i] == Underscore
    ensures forall i | 0 <= i < |s| && !IsSeparator(s[i]) :: r[i] == s[i]
  {
    seq(|s|, i requires 0 <= i < |s| => if IsSeparator(s[i]) then Underscore else s[i])
  }

  /** The `while safe_key.startswith('.')` loop: the longest suffix of `s` not starting with a dot. */
  function StripLeadingDots(s: PyStr): (r: PyStr)
    ensures |r| <= |s| && r == s[|s| - |r|..]
    ensures forall i | 0 <= i < |s| - |r| :: s[i] == Dot
    ensures |r| == 0 || r[0] != Dot
  {
    if |s| > 0 && s[0] == Dot then StripLeadingDots(s[1..]) else s
  }

  /** The key after separator replacement and dot stripping, before the length check. */
  function Sanitise(key: PyStr): PyStr {
    StripLeadingDots(ReplaceSeparators(key))
  }

  /** What Azure Table Storage accepts and `get_safe_key` guarantees. */
  predicate Admissible(k: PyStr) {
    && |k| > 0
    && (forall i | 0 <= i < |k| :: !IsSeparator(k[i]))
    && k[0] != Dot
    && Encodable(k)
    && Utf8Length(k) <= MaxEncodedBytes
  }

  datatype SafeKeyResult = Key(value: PyStr) | UnicodeEncodeError

  /** Replacing separators neither adds nor removes a lone surrogate. */
  lemma ReplaceKeepsSurrogates(s: PyStr)
    ensures Encodable(ReplaceSeparators(s)) <==> Encodable(s)
  {
    var r := ReplaceSeparators(s);
    if !Encodable(s) {
      var i :| 0 <= i < |s| && IsSurrogate(s[i]);
      assert r[i] == s[i];
    }
  }

  /** Stripping leading dots neither adds nor removes a lone surrogate, and never strips one. */
  lemma {:induction false} StripKeepsSurrogates(s: PyStr)
    ensures Encodable(StripLeadingDots(s)) <==> Encodable(s)
    ensures !Encodable(s) ==> |StripLeadingDots(s)| > 0
    decreases |s|
  {
    if |s| > 0 && s[0] == Dot {
      var t := s[1..];
      StripKeepsSurrogates(t);
      if !Encodable(s) {
        var i :| 0 <= i < |s| && IsSurrogate(s[i]);
        assert t[i - 1] == s[i];
      }
      if !Encodable(t) {
        var i :| 0 <= i < |t| && IsSurrogate(t[i]);
        assert s[i + 1] == t[i];
      }
    }
  }

  /** The sanitised key holds a lone surrogate exactly when the input does. */
  lemma SanitiseKeepsSurrogates(key: PyStr)
    ensures Encodable(Sanitise(key)) <==> Encodable(key)
    ensures !Encodable(key) ==> |Sanitise(key)| > 0
  {
    ReplaceKeepsSurrogates(key);
    StripKeepsSurrogates(ReplaceSeparators(key));
  }

  /** The sanitised key has no separator, and nothing is left of a key made of dots only. */
  lemma SanitiseShape(key: PyStr)
    ensures forall i | 0 <= i < |Sanitise(key)| :: !IsSeparator(Sanitise(key)[i])
    ensures (forall i | 0 <= i < |key| :: key[i] == Dot) ==> Sanitise(key) == []
  {
    var rep := ReplaceSeparators(key);
    var safe := Sanitise(key);
    var cut := |rep| - |safe|;
    forall i | 0 <= i < |safe|
      ensures !IsSeparator(safe[i])
    {
      assert safe[i] == rep[i + cut];
    }
  }

  function GetSafeKey(key: PyStr): (r: SafeKeyResult)
    ensures r.Key? ==> Admissible(r.value)
    ensures r.UnicodeEncodeError? <==> !Encodable(key)
    ensures (forall i | 0 <= i < |key| :: key[i] == Dot) ==> r == Key(Unknown)
    ensures r.Key? && r.value != Unknown ==> r.value <= Sanitise(key)
  {
    if |key| == 0 then Key(Unknown)
    else
      var safe := Sanitise(key);
      SanitiseKeepsSurrogates(key);
      SanitiseShape(key);
      if |safe| == 0 then Key(Unknown)
      else if !Encodable(safe) then UnicodeEncodeError
      else if Utf8Length(safe) > MaxEncodedBytes then
        assert Utf8Length(safe[..TruncatedLength]) <= 4 * TruncatedLength;
        Key(safe[..TruncatedLength])
      else Key(safe)
  }

  /** When the encoding is too long the key is exactly the first 250 code points of the sanitised string. */
  lemma TruncationKeepsPrefix(key: PyStr)
    requires Encodable(key)
    requires Utf8Length(Sanitise(key)) > MaxEncodedBytes
    ensures |Sanitise(key)| > TruncatedLength
    ensures GetSafeKey(key) == Key(Sanitise(key)[..TruncatedLength])
    ensures Utf8Length(GetSafeKey(key).value) <= MaxEncodedBytes
  {
    SanitiseKeepsSurrogates(key);
  }

  /** A key within the byte limit keeps every code point that survives sanitising. */
  lemma ShortKeyKept(key: PyStr)
    requires Encodable(key)
    requires |Sanitise(key)| > 0
    requires Utf8Length(Sanitise(key)) <= MaxEncodedBytes
    ensures GetSafeKey(key) == Key(Sanitise(key))
  {
    SanitiseKeepsSurrogates(key);
  }

  /** The keys `get_safe_key` leaves unchanged are exactly the admissible ones. */
  lemma FixedPointIffAdmissible(k: PyStr)
    ensures GetSafeKey(k) == Key(k) <==> Admissible(k)
  {
    if Admissible(k) {
      var rep := ReplaceSeparators(k);
      assert rep == k;
      assert StripLeadingDots(k) == k;
    }
  }

  /** Sanitising twice gives the same key as sanitising once. */
  lemma Idempotent(key: PyStr)
    requires GetSafeKey(key).Key?
    ensures GetSafeKey(GetSafeKey(key).value) == GetSafeKey(key)
  {
    FixedPointIffAdmissible(GetSafeKey(key).value);
  }
}

=== FILE: trigger.dfy ===
/**
 * `manual_trigger`: one pass over the fetched exception rows, filing a Jira
 * ticket for every row whose row key the dedup store does not hold yet.
 *
 * The rows are an input (the result of `query_app_insights`, which yields
 * `[]` on any failure); Jira's answer for each submitted ticket is an oracle.
 */
module Trigger {
  import opened Base
  import opened RowKey
  import opened DedupStore

  /** One fetched exception: timestamp, problem id, and the details shown in the ticket. */
  datatype Row = Row(timestamp: string, problemId: string, details: string)

  /** What `create_jira_issue` does for one ticket. */
  datatype JiraOutcome = IssueCreated(key: string) | NoKeyInResponse | RequestFailed

  /** Everything the outside world decides while one row is handled. */
  datatype RowOracle = RowOracle(check: CheckOracle, jira: JiraOutcome, mark: MarkOracle)

  /** How one row ends: skipped, ticket created (and whether the mark stuck), answer without a key, or raised. */
  datatype RowOutcome = Skipped | Created(jiraKey: string, recorded: bool) | Unacknowledged | Failed

  /** The state the loop threads: the store, the two counters, and logs of tickets and outcomes. */
  datatype RunState = RunState(
    store: Store,
    created: nat,
    skipped: nat,
    submitted: seq<Row>,
    outcomes: seq<RowOutcome>)

  function CountCreated(os: seq<RowOutcome>): (n: nat)
    ensures n <= |os|
  {
    if |os| == 0 then 0
    else CountCreated(os[..|os| - 1]) + (if os[|os| - 1].Created? then 1 else 0)
  }

  function CountSkipped(os: seq<RowOutcome>): (n: nat)
    ensures n <= |os|
  {
    if |os| == 0 then 0
    else CountSkipped(os[..|os| - 1]) + (if os[|os| - 1].Skipped? then 1 else 0)
  }

  lemma {:induction false} CountsBounded(os: seq<RowOutcome>)
    ensures CountCreated(os) + CountSkipped(os) <= |os|
  {
    if |os| > 0 {
      CountsBounded(os[..|os| - 1]);
    }
  }

  /** The counters agree with the outcome log. */
  predicate Consistent(st: RunState) {
    st.created == CountCreated(st.outcomes) && st.skipped == CountSkipped(st.outcomes)
  }

  /** What handling one row leaves behind: how it ended and the store after it. */
  datatype Handled = Handled(outcome: RowOutcome, store: Store)

  /** The `try` block of the loop for one row: the duplicate check, the ticket, and the mark. */
  function HandleRow(s: Store, parse: Parser, row: Row, o: RowOracle): Handled {
    var check := IsExceptionProcessed(s, parse, row.timestamp, o.check);
    if check.processed then Handled(Skipped, check.store)
    else
      match o.jira
      case RequestFailed => Handled(Failed, check.store)
      case NoKeyInResponse => Handled(Unacknowledged, check.store)
      case IssueCreated(key) =>
        var mark := MarkExceptionProcessed(check.store, parse, row.problemId, row.timestamp, key, o.mark);
        Handled(Created(key, mark.recorded), mark.store)
  }

  /** How one row ends, in terms of the store it meets and the oracle answers. */
  lemma HandleRowOutcome(s: Store, parse: Parser, row: Row, o: RowOracle)
    ensures var check := IsExceptionProcessed(s, parse, row.timestamp, o.check);
            var h := HandleRow(s, parse, row, o);
            && (h.outcome.Skipped? <==> check.processed)
            && (h.outcome.Created? <==> !check.processed && o.jira.IssueCreated?)
            && (h.outcome.Failed? <==> !check.processed && o.jira.RequestFailed?)
            && (h.outcome.Unacknowledged? <==> !check.processed && o.jira.NoKeyInResponse?)
            && (!h.outcome.Created? ==> h.store == check.store)
  {
  }

  /** Handling a row keeps the store invariant. */
  lemma HandleRowValid(s: Store, parse: Parser, row: Row, o: RowOracle)
    requires s.Valid()
    ensures HandleRow(s, parse, row, o).store.Valid()
  {
    var check := IsExceptionProcessed(s, parse, row.timestamp, o.check);
    assert check.store.Valid();
  }

  /**
   * The bookkeeping after one row: `skipped += 1` for a skip, `created += 1`
   * for a ticket with a key, every row but a skipped one goes to Jira.
   */
  function Record(st: RunState, row: Row, h: Handled): (r: RunState)
    ensures r.store == h.store && r.outcomes == st.outcomes + [h.outcome]
    ensures r.created == st.created + CountCreated([h.outcome])
    ensures r.skipped == st.skipped + CountSkipped([h.outcome])
    ensures r.submitted == if h.outcome.Skipped? then st.submitted else st.submitted + [row]
  {
    RunState(
      h.store,
      if h.outcome.Created? then st.created + 1 else st.created,
      if h.outcome.Skipped? then st.skipped + 1 else st.skipped,
      if h.outcome.Skipped? then st.submitted else st.submitted + [row],
      st.outcomes + [h.outcome])
  }

  /** The bookkeeping keeps the counters equal to the counts of the outcome log. */
  lemma RecordConsistent(st: RunState, row: Row, h: Handled)
    requires Consistent(st)
    ensures Consistent(Record(st, row, h))
  {
    var os := st.outcomes + [h.outcome];
    assert os[..|os| - 1] == st.outcomes;
  }

  /** The body of the `for row in exceptions` loop for one row. */
  function Step(st: RunState, parse: Parser, row: Row, o: RowOracle): RunState {
    Record(st, row, HandleRow(st.store, parse, row, o))
  }

  /** The loop over the rows, in order, threading the state through every row. */
  function Fold(st: RunState, parse: Parser, rows: seq<Row>, oracles: seq<RowOracle>): (r: RunState)
    requires |oracles| == |rows|
    ensures |r.outcomes| == |st.outcomes| + |rows|
    decreases |rows|
  {
    if |rows| == 0 then st
    else Fold(Step(st, parse, rows[0], oracles[0]), parse, rows[1..], oracles[1..])
  }

  /** A pass keeps the counters equal to the counts of the outcome log, and keeps the store invariant. */
  lemma {:induction false} FoldInvariants(st: RunState, parse: Parser, rows: seq<Row>, oracles: seq<RowOracle>)
    requires |oracles| == |rows|
    ensures Consistent(st) ==> Consistent(Fold(st, parse, rows, oracles))
    ensures st.store.Valid() ==> Fold(st, parse, rows, oracles).store.Valid()
    decreases |rows|
  {
    if |rows| > 0 {
      var h := HandleRow(st.store, parse, rows[0], oracles[0]);
      if Consistent(st) {
        RecordConsistent(st, rows[0], h);
      }
      if st.store.Valid() {
        HandleRowValid(st.store, parse, rows[0], oracles[0]);
      }
      FoldInvariants(Record(st, rows[0], h), parse, rows[1..], oracles[1..]);
    }
  }

  /** Handling a batch in two parts is handling it in one: no row stops the rows after it. */
  lemma {:induction false} FoldSplit(st: RunState, parse: Parser, rows1: seq<Row>, rows2: seq<Row>,
                                     os1: seq<RowOracle>, os2: seq<RowOracle>)
    requires |os1| == |rows1| && |os2| == |rows2|
    ensures Fold(st, parse, rows1 + rows2, os1 + os2) == Fold(Fold(st, parse, rows1, os1), parse, rows2, os2)
    decreases |rows1|
  {
    if |rows1| == 0 {
      assert rows1 + rows2 == rows2;
      assert os1 + os2 == os2;
    } else {
      var rows, os := rows1 + rows2, os1 + os2;
      var next := Step(st, parse, rows1[0], os1[0]);
      assert rows[0] == rows1[0] && os[0] == os1[0];
      assert rows[1..] == rows1[1..] + rows2;
      assert os[1..] == os1[1..] + os2;
      calc {
        Fold(st, parse, rows, os);
        Fold(next, parse, rows[1..], os[1..]);
        { FoldSplit(next, parse, rows1[1..], rows2, os1[1..], os2); }
        Fold(Fold(next, parse, rows1[1..], os1[1..]), parse, rows2, os2);
      }
    }
  }

  /** A row in the middle of a batch is handled from the state the rows before it leave, and the rows after it continue from its result. */
  lemma FoldThrough(st: RunState, parse: Parser, before: seq<Row>, row: Row, after: seq<Row>,
                    osBefore: seq<RowOracle>, o: RowOracle, osAfter: seq<RowOracle>)
    requires |osBefore| == |before| && |osAfter| == |after|
    ensures Fold(st, parse, before + [row] + after, osBefore + [o] + osAfter)
         == Fold(Step(Fold(st, parse, before, osBefore), parse, row, o), parse, after, osAfter)
  {
    var rest, osRest := [row] + after, [o] + osAfter;
    assert before + [row] + after == before + rest;
    assert osBefore + [o] + osAfter == osBefore + osRest;
    FoldSplit(st, parse, before, rest, osBefore, osRest);
    assert rest[0] == row && rest[1..] == after;
    assert osRest[0] == o && osRest[1..] == osAfter;
  }

  /** A row whose ticket request raises counts as neither created nor skipped, and the rows after it run as usual. */
  lemma FailedRowIsolated(st: RunState, parse: Parser, before: seq<Row>, row: Row, after: seq<Row>,
                          osBefore: seq<RowOracle>, o: RowOracle, osAfter: seq<RowOracle>)
    requires |osBefore| == |before| && |osAfter| == |after|
    requires o.jira.RequestFailed?
    ensures var mid := Fold(st, parse, before, osBefore);
            var check := IsExceptionProcessed(mid.store, parse, row.timestamp, o.check);
            var next := Step(mid, parse, row, o);
            && (!check.processed ==>
                  next.outcomes == mid.outcomes + [Failed]
                  && next.created == mid.created && next.skipped == mid.skipped
                  && next.store == check.store)
            && Fold(st, parse, before + [row] + after, osBefore + [o] + osAfter) == Fold(next, parse, after, osAfter)
  {
    HandleRowOutcome(Fold(st, parse, before, osBefore).store, parse, row, o);
    FoldThrough(st, parse, before, row, after, osBefore, o, osAfter);
  }

  /** The `summary` object of the JSON reply. */
  datatype Summary = Summary(totalExceptions: nat, ticketsCreated: nat, skipped: nat)

  datatype TriggerResult = TriggerResult(
    summary: Summary,
    store: Store,
    submitted: seq<Row>,
    outcomes: seq<RowOutcome>)

  /** `manual_trigger`: the summary of one pass over `rows`; it never raises. */
  function ManualTrigger(s: Store, parse: Parser, rows: seq<Row>, oracles: seq<RowOracle>): (r: TriggerResult)
    requires |oracles| == |rows|
    ensures |rows| == 0 ==> r.summary == Summary(0, 0, 0) && r.store == s && r.submitted == []
    ensures r.summary.totalExceptions == |rows| == |r.outcomes|
    ensures r.summary.ticketsCreated == CountCreated(r.outcomes)
    ensures r.summary.skipped == CountSkipped(r.outcomes)
    ensures r.summary.ticketsCreated + r.summary.skipped <= r.summary.totalExceptions
    ensures s.Valid() ==> r.store.Valid()
  {
    if |rows| == 0 then TriggerResult(Summary(0, 0, 0), s, [], [])
    else
      var init := RunState(s, 0, 0, [], []);
      var final := Fold(init, parse, rows, oracles);
      FoldInvariants(init, parse, rows, oracles);
      CountsBounded(final.outcomes);
      TriggerResult(Summary(|rows|, final.created, final.skipped), final.store, final.submitted, final.outcomes)
  }

  /** The trigger's result is the pass over the rows from zero counters, including for an empty fetch. */
  lemma ManualTriggerRunsFold(s: Store, parse: Parser, rows: seq<Row>, oracles: seq<RowOracle>)
    requires |oracles| == |rows|
    ensures var r := ManualTrigger(s, parse, rows, oracles);
            var f := Fold(RunState(s, 0, 0, [], []), parse, rows, oracles);
            && r.summary == Summary(|rows|, f.created, f.skipped)
            && r.store == f.store && r.submitted == f.submitted && r.outcomes == f.outcomes
  {
  }

  /** Every timestamp in `rows` parses. */
  predicate AllParse(parse: Parser, rows: seq<Row>) {
    forall i | 0 <= i < |rows| :: parse(rows[i].timestamp).Some?
  }

  /** The row key of one row as a set: empty when its timestamp does not parse. */
  function KeyOf(parse: Parser, row: Row): set<string> {
    match RowKeyFor(parse, row.timestamp)
    case None => {}
    case Some(key) => {key}
  }

  /** The row keys of those rows of `rows` whose timestamps parse. */
  function KeysOf(parse: Parser, rows: seq<Row>): (keys: set<string>)
    ensures forall i | 0 <= i < |rows| && RowKeyFor(parse, rows[i].timestamp).Some? ::
              RowKeyFor(parse, rows[i].timestamp).value in keys
  {
    if |rows| == 0 then {}
    else KeyOf(parse, rows[0]) + KeysOf(parse, rows[1..])
  }

  /** Conversely, every key in `KeysOf` is the row key of some row. */
  lemma {:induction false} KeysOfOnlyRowKeys(parse: Parser, rows: seq<Row>)
    ensures forall k | k in KeysOf(parse, rows) ::
              exists i | 0 <= i < |rows| :: RowKeyFor(parse, rows[i].timestamp) == Some(k)
  {
    if |rows| > 0 {
      KeysOfOnlyRowKeys(parse, rows[1..]);
      forall k | k in KeysOf(parse, rows)
        ensures exists i | 0 <= i < |rows| :: RowKeyFor(parse, rows[i].timestamp) == Some(k)
      {
        if k !in KeyOf(parse, rows[0]) {
          var j :| 0 <= j < |rows[1..]| && RowKeyFor(parse, rows[1..][j].timestamp) == Some(k);
          assert rows[1..][j] == rows[j + 1];
        }
      }
    }
  }

  /** The store answers the duplicate check. */
  predicate CheckReliable(o: RowOracle) {
    o.check.clientAvailable && o.check.query.Answered?
  }

  /** The store answers every call, its first upsert succeeds, and Jira's answer carries a key. */
  predicate Reliable(o: RowOracle) {
    && CheckReliable(o)
    && o.jira.IssueCreated?
    && o.mark.clientAvailable
    && o.mark.attempts[0].Upserted?
  }

  /**
   * One row under a reliable store: skipped if its key is stored, otherwise
   * ticketed, and recorded when its timestamp parses.
   */
  lemma ReliableStep(st: RunState, parse: Parser, row: Row, o: RowOracle)
    requires Reliable(o)
    ensures var key := RowKeyFor(parse, row.timestamp);
            var r := Step(st, parse, row, o);
            && (key.None? ==>
                  r.store.rows == st.store.rows && r.submitted == st.submitted + [row] && r.created == st.created + 1)
            && (key.Some? && key.value in st.store.rows ==>
                  r.store.rows == st.store.rows && r.submitted == st.submitted && r.created == st.created)
            && (key.Some? && key.value !in st.store.rows ==>
                  r.store.rows.Keys == st.store.rows.Keys + {key.value}
                  && r.submitted == st.submitted + [row] && r.created == st.created + 1)
  {
  }

  /** The rest of a reliable batch is reliable. */
  lemma TailReliable(oracles: seq<RowOracle>)
    requires |oracles| > 0
    requires forall i | 0 <= i < |oracles| :: Reliable(oracles[i])
    ensures Reliable(oracles[0])
    ensures forall i | 0 <= i < |oracles[1..]| :: Reliable(oracles[1..][i])
  {
    forall i | 0 <= i < |oracles[1..]|
      ensures Reliable(oracles[1..][i])
    {
      assert oracles[1..][i] == oracles[i + 1];
    }
  }

  /** A pass only appends to the log of filed tickets. */
  lemma {:induction false} FoldExtendsSubmitted(st: RunState, parse: Parser, rows: seq<Row>, oracles: seq<RowOracle>)
    requires |oracles| == |rows|
    ensures var r := Fold(st, parse, rows, oracles);
            |st.submitted| <= |r.submitted| && r.submitted[..|st.submitted|] == st.submitted
    decreases |rows|
  {
    if |rows| == 0 {
      assert st.submitted[..|st.submitted|] == st.submitted;
    } else {
      var st1 := Step(st, parse, rows[0], oracles[0]);
      FoldExtendsSubmitted(st1, parse, rows[1..], oracles[1..]);
      var r := Fold(st1, parse, rows[1..], oracles[1..]);
      var n, n1 := |st.submitted|, |st1.submitted|;
      assert st1.submitted == st.submitted || st1.submitted == st.submitted + [rows[0]];
      assert r.submitted[..n] == r.submitted[..n1][..n];
      assert st1.submitted[..n] == st.submitted;
    }
  }

  /** Under a reliable store a row's key, if it has one, is stored after it, whether it was skipped or ticketed. */
  lemma ReliableStepKeys(st: RunState, parse: Parser, row: Row, o: RowOracle)
    requires Reliable(o)
    ensures Step(st, parse, row, o).store.rows.Keys == st.store.rows.Keys + KeyOf(parse, row)
  {
    ReliableStep(st, parse, row, o);
  }

  /**
   * Under a reliable store a row only adds keys, its own key, if any, is
   * stored after it, and it is ticketed only when that key was not stored before.
   */
  lemma ReliableStepFresh(st: RunState, parse: Parser, row: Row, o: RowOracle)
    requires Reliable(o)
    ensures var key := RowKeyFor(parse, row.timestamp);
            var r := Step(st, parse, row, o);
            && st.store.rows.Keys <= r.store.rows.Keys
            && (key.Some? ==> key.value in r.store.rows)
            && (r.submitted == st.submitted
                || (r.submitted == st.submitted + [row] && (key.Some? ==> key.value !in st.store.rows)))
  {
    ReliableStep(st, parse, row, o);
  }

  /** A pass under a reliable store stores exactly the row keys of its rows that parse. */
  lemma {:induction false} ReliableFoldStores(st: RunState, parse: Parser, rows: seq<Row>, oracles: seq<RowOracle>)
    requires |oracles| == |rows|
    requires forall i | 0 <= i < |oracles| :: Reliable(oracles[i])
    ensures Fold(st, parse, rows, oracles).store.rows.Keys == st.store.rows.Keys + KeysOf(parse, rows)
    decreases |rows|
  {
    if |rows| == 0 {
      assert KeysOf(parse, rows) == {};
    } else {
      var st1 := Step(st, parse, rows[0], oracles[0]);
      TailReliable(oracles);
      ReliableStepKeys(st, parse, rows[0], oracles[0]);
      ReliableFoldStores(st1, parse, rows[1..], oracles[1..]);
      assert KeysOf(parse, rows) == KeyOf(parse, rows[0]) + KeysOf(parse, rows[1..]);
    }
  }

  /** When Jira answers every ticket with a key, every ticket a pass files is counted as created. */
  lemma {:induction false} ReliableFoldCounts(st: RunState, parse: Parser, rows: seq<Row>, oracles: seq<RowOracle>)
    requires |oracles| == |rows|
    requires forall i | 0 <= i < |oracles| :: oracles[i].jira.IssueCreated?
    ensures var r := Fold(st, parse, rows, oracles);
            r.created - st.created == |r.submitted| - |st.submitted|
    decreases |rows|
  {
    if |rows| > 0 {
      var h := HandleRow(st.store, parse, rows[0], oracles[0]);
      assert forall i | 0 <= i < |oracles[1..]| :: oracles[1..][i].jira.IssueCreated? by {
        forall i | 0 <= i < |oracles[1..]|
          ensures oracles[1..][i].jira.IssueCreated?
        {
          assert oracles[1..][i] == oracles[i + 1];
        }
      }
      HandleRowOutcome(st.store, parse, rows[0], oracles[0]);
      assert h.outcome.Skipped? || h.outcome.Created?;
      ReliableFoldCounts(Record(st, rows[0], h), parse, rows[1..], oracles[1..]);
    }
  }

  /**
   * Of the tickets a reliable pass files, none whose timestamp parses has a
   * row key that was stored before the pass.
   */
  lemma {:induction false} ReliableFoldFresh(st: RunState, parse: Parser, rows: seq<Row>, oracles: seq<RowOracle>)
    requires |oracles| == |rows|
    requires forall i | 0 <= i < |oracles| :: Reliable(oracles[i])
    ensures var r := Fold(st, parse, rows, oracles);
            forall i | |st.submitted| <= i < |r.submitted| && RowKeyFor(parse, r.submitted[i].timestamp).Some? ::
              RowKeyFor(parse, r.submitted[i].timestamp).value !in st.store.rows
    decreases |rows|
  {
    if |rows| > 0 {
      var row := rows[0];
      var st1 := Step(st, parse, row, oracles[0]);
      TailReliable(oracles);
      ReliableStepFresh(st, parse, row, oracles[0]);
      ReliableFoldFresh(st1, parse, rows[1..], oracles[1..]);
      FoldExtendsSubmitted(st1, parse, rows[1..], oracles[1..]);
      var r := Fold(st1, parse, rows[1..], oracles[1..]);
      assert r == Fold(st, parse, rows, oracles);
      var n := |st.submitted|;
      forall i | n <= i < |r.submitted| && RowKeyFor(parse, r.submitted[i].timestamp).Some?
        ensures RowKeyFor(parse, r.submitted[i].timestamp).value !in st.store.rows
      {
        if i < |st1.submitted| {
          assert i == n && st1.submitted == st.submitted + [row];
          assert r.submitted[..|st1.submitted|][i] == st1.submitted[i] == row;
        } else {
          assert RowKeyFor(parse, r.submitted[i].timestamp).value !in st1.store.rows;
        }
      }
    }
  }

  /** Of the tickets a reliable pass files, those whose timestamps parse have pairwise distinct row keys. */
  lemma {:induction false} ReliableFoldDistinct(st: RunState, parse: Parser, rows: seq<Row>, oracles: seq<RowOracle>)
    requires |oracles| == |rows|
    requires forall i | 0 <= i < |oracles| :: Reliable(oracles[i])
    ensures var r := Fold(st, parse, rows, oracles);
            forall i, j | |st.submitted| <= i < j < |r.submitted| && RowKeyFor(parse, r.submitted[i].timestamp).Some? ::
              RowKeyFor(parse, r.submitted[i].timestamp) != RowKeyFor(parse, r.submitted[j].timestamp)
    decreases |rows|
  {
    if |rows| > 0 {
      var row := rows[0];
      var st1 := Step(st, parse, row, oracles[0]);
      TailReliable(oracles);
      ReliableStepFresh(st, parse, row, oracles[0]);
      ReliableFoldDistinct(st1, parse, rows[1..], oracles[1..]);
      ReliableFoldFresh(st1, parse, rows[1..], oracles[1..]);
      FoldExtendsSubmitted(st1, parse, rows[1..], oracles[1..]);
      var r := Fold(st1, parse, rows[1..], oracles[1..]);
      assert r == Fold(st, parse, rows, oracles);
      var n := |st.submitted|;
      forall i, j | n <= i < j < |r.submitted| && RowKeyFor(parse, r.submitted[i].timestamp).Some?
        ensures RowKeyFor(parse, r.submitted[i].timestamp) != RowKeyFor(parse, r.submitted[j].timestamp)
      {
        if i < |st1.submitted| {
          assert st1.submitted == st.submitted + [row];
          assert r.submitted[..|st1.submitted|][i] == st1.submitted[i] == row;
          if RowKeyFor(parse, r.submitted[j].timestamp).Some? {
            assert RowKeyFor(parse, r.submitted[j].timestamp).value !in st1.store.rows;
          }
        }
      }
    }
  }

  /** Only fetched rows get tickets: every row a pass submits is one of its rows. */
  lemma {:induction false} FoldSubmitsOnlyRows(st: RunState, parse: Parser, rows: seq<Row>, oracles: seq<RowOracle>)
    requires |oracles| == |rows|
    ensures var r := Fold(st, parse, rows, oracles);
            forall i | |st.submitted| <= i < |r.submitted| :: r.submitted[i] in rows
    decreases |rows|
  {
    if |rows| > 0 {
      var st1 := Step(st, parse, rows[0], oracles[0]);
      FoldSubmitsOnlyRows(st1, parse, rows[1..], oracles[1..]);
      FoldExtendsSubmitted(st1, parse, rows[1..], oracles[1..]);
      var r := Fold(st1, parse, rows[1..], oracles[1..]);
      assert r == Fold(st, parse, rows, oracles);
      forall i | |st.submitted| <= i < |r.submitted|
        ensures r.submitted[i] in rows
      {
        if i < |st1.submitted| {
          assert st1.submitted == st.submitted + [rows[0]];
          assert r.submitted[..|st1.submitted|][i] == st1.submitted[i] == rows[0];
        } else {
          assert r.submitted[i] in rows[1..];
        }
      }
    }
  }

  /** Where every row key is already stored and the store answers, a pass skips every row and changes nothing. */
  lemma {:induction false} AllStoredFold(st: RunState, parse: Parser, rows: seq<Row>, oracles: seq<RowOracle>)
    requires |oracles| == |rows|
    requires forall i | 0 <= i < |oracles| :: CheckReliable(oracles[i])
    requires AllParse(parse, rows)
    requires KeysOf(parse, rows) <= st.store.rows.Keys
    ensures var r := Fold(st, parse, rows, oracles);
            && r.created == st.created
            && r.skipped == st.skipped + |rows|
            && r.submitted == st.submitted
            && r.store.rows == st.store.rows
    decreases |rows|
  {
    if |rows| > 0 {
      var st1 := Step(st, parse, rows[0], oracles[0]);
      assert KeysOf(parse, rows) == KeyOf(parse, rows[0]) + KeysOf(parse, rows[1..]);
      assert RowKeyFor(parse, rows[0].timestamp).value in st.store.rows;
      assert AllParse(parse, rows[1..]) by {
        forall i | 0 <= i < |rows[1..]|
          ensures parse(rows[1..][i].timestamp).Some?
        {
          assert rows[1..][i] == rows[i + 1];
        }
      }
      AllStoredFold(st1, parse, rows[1..], oracles[1..]);
    }
  }

  /**
   * Under a reliable store only fetched rows get tickets, no row key gets two
   * tickets in one pass, no ticket is filed for a key stored before the pass,
   * and every ticket is counted. A row whose timestamp does not parse has no
   * key and is ticketed regardless.
   */
  lemma AtMostOneTicketPerKey(s: Store, parse: Parser, rows: seq<Row>, oracles: seq<RowOracle>)
    requires |oracles| == |rows|
    requires forall i | 0 <= i < |oracles| :: Reliable(oracles[i])
    ensures var r := ManualTrigger(s, parse, rows, oracles);
            && r.summary.ticketsCreated == |r.submitted|
            && r.store.rows.Keys == s.rows.Keys + KeysOf(parse, rows)
            && (forall i | 0 <= i < |r.submitted| :: r.submitted[i] in rows)
            && (forall i | 0 <= i < |r.submitted| && RowKeyFor(parse, r.submitted[i].timestamp).Some? ::
                  RowKeyFor(parse, r.submitted[i].timestamp).value !in s.rows)
            && (forall i, j | 0 <= i < j < |r.submitted| && RowKeyFor(parse, r.submitted[i].timestamp).Some? ::
                  RowKeyFor(parse, r.submitted[i].timestamp) != RowKeyFor(parse, r.submitted[j].timestamp))
            && (AllParse(parse, rows) ==>
                  forall i | 0 <= i < |r.submitted| :: RowKeyFor(parse, r.submitted[i].timestamp).Some?)
  {
    var init := RunState(s, 0, 0, [], []);
    var f := Fold(init, parse, rows, oracles);
    ManualTriggerRunsFold(s, parse, rows, oracles);
    ReliableFoldStores(init, parse, rows, oracles);
    ReliableFoldCounts(init, parse, rows, oracles);
    ReliableFoldFresh(init, parse, rows, oracles);
    ReliableFoldDistinct(init, parse, rows, oracles);
    FoldSubmitsOnlyRows(init, parse, rows, oracles);
    if AllParse(parse, rows) {
      forall i | 0 <= i < |f.submitted|
        ensures RowKeyFor(parse, f.submitted[i].timestamp).Some?
      {
        var k :| 0 <= k < |rows| && rows[k] == f.submitted[i];
      }
    }
  }

  /** Re-running the trigger on the same rows after a reliable pass files no ticket and skips every row. */
  lemma SecondRunSkipsAll(s: Store, parse: Parser, rows: seq<Row>, first: seq<RowOracle>, second: seq<RowOracle>)
    requires |first| == |rows| && |second| == |rows|
    requires forall i | 0 <= i < |first| :: Reliable(first[i])
    requires forall i | 0 <= i < |second| :: CheckReliable(second[i])
    requires AllParse(parse, rows)
    ensures var again := ManualTrigger(ManualTrigger(s, parse, rows, first).store, parse, rows, second);
            again.summary == Summary(|rows|, 0, |rows|) && again.submitted == []
  {
    var s1 := ManualTrigger(s, parse, rows, first).store;
    AtMostOneTicketPerKey(s, parse, rows, first);
    ManualTriggerRunsFold(s1, parse, rows, second);
    AllStoredFold(RunState(s1, 0, 0, [], []), parse, rows, second);
  }

  /**
   * A row whose timestamp does not parse is never skipped and never recorded:
   * every pass files a fresh ticket for it.
   */
  lemma UnparseableRowNeverSkipped(st: RunState, parse: Parser, row: Row, o: RowOracle)
    requires parse(row.timestamp).None?
    ensures var r := Step(st, parse, row, o);
            && !r.outcomes[|st.outcomes|].Skipped?
            && r.submitted == st.submitted + [row]
            && r.store.rows == st.store.rows
  {
  }

  /**
   * The row key ignores the problem id: under a reliable store, a row that
   * follows another row from the same second is skipped, whatever its problem.
   */
  lemma SameSecondCollides(st: RunState, parse: Parser, a: Row, b: Row, oa: RowOracle, ob: RowOracle)
    requires Reliable(oa) && CheckReliable(ob)
    requires parse(a.timestamp).Some? && parse(b.timestamp).Some?
    requires parse(a.timestamp).value.WholeSecond() == parse(b.timestamp).value.WholeSecond()
    ensures Step(Step(st, parse, a, oa), parse, b, ob).outcomes[|st.outcomes| + 1] == Skipped
  {
    SameSecondSameKey(parse, a.timestamp, b.timestamp);
    ReliableStep(st, parse, a, oa);
    var mid := Step(st, parse, a, oa);
    HandleRowOutcome(mid.store, parse, b, ob);
  }
}
